=== FILE: README.md ===
# launch_ec2_spots in Dafny

A model of the decision logic of `launch_ec2_spots.py`. This is the launcher that requests EC2 spot instances, waits until every spot request of its batch is fulfilled, and resolves the launched instances. After a practically-terminal status code, or an interrupt during the fulfillment wait, it cancels every request of the batch. A terminal status code fails the launch without a cancellation, so the other requests of the batch stay open.

The AWS CLI calls, the sleeps and the temporary payload file are removed, which makes the logic pure. What remains is modelled as pure functions over immutable datatypes, in the following modules:

- `LaunchSpec` models `_process_launch_spec`. It takes the decoded launch specification (`map<string, Value>`) and separates `INSTANCE_COUNT` and `MAX_SPOT_PRICE` from it. It derives an optional region (`Option<string>`) from `Placement.AvailabilityZone` and drops or keeps `Placement` accordingly. It replaces `USER_DATA_FILE_NAME` with an encoded `UserData` field. The file system is an oracle (`map` from existing file names to their text). The base64 encoding is an opaque function parameter.
- `StatusCodes` holds the status-code classes:
  - `fulfilled`;
  - six practically-terminal codes, which the provider documents as non-terminal but which never resolve;
  - four terminal codes;
  - everything else, which keeps the request waiting.
- `Fulfillment` models the body of `_wait_for_launch_requests_to_fulfill`. `Evaluate` is the verdict on one snapshot: `Done`, `Continue`, or `Fail(code, message, cancelled)`. `EvaluateSnapshot` is the launcher's in-order loop over the snapshot, with its waiting counter. The polling loop is a walk over a finite sequence of cycles. Each cycle is an observed snapshot or an interrupt, and the walk stops at the first cycle that does not say `Continue`.
- `Instances` covers two pieces. One is the comprehension that resolves this run's instances from the `describe-instances` reservations. The other is the per-snapshot check of `_wait_for_full_initialization` and its polling walk.
- `Launcher` models `launch_EC2_spot_instances` as a whole. It records the calls that change provider state as a trace of events: the one submission and at most one cancellation of the whole batch.
- `Scenarios` holds concrete runs: the two zone examples from the script's documentation, a fulfilled two-instance launch, a launch that fails on `capacity-not-available`, and one that fails on the terminal `canceled-before-fulfillment` and leaves the other request open.
- `Polling` holds the shape of a polling cycle (`Tick`), which both waits share.
- `Wrappers` and `Collections` are helpers: `Option`/`Result`, and the set-cardinality facts the counting proofs use.

Several behaviours of the code are easy to get wrong, and the model keeps them as the code has them:

- **Empty batch.** With an empty list of request ids, the fulfillment loop (`while sirWaitingCount > 0`) never runs. No snapshot is read at all. `WaitForFulfillment` returns `AllFulfilled` after zero cycles.
- **Missing public address.** An owned instance without `PublicIpAddress` (or `PrivateIpAddress`) makes the projection raise a `KeyError`. It is not tolerated as an absent value, so `Resolve` returns `MissingKey`.
- **Switches that are not strings.** `_process_launch_spec` returns `INSTANCE_COUNT` and `MAX_SPOT_PRICE` as the spec holds them. When either is not a string, building the request command raises a `TypeError` before any provider call. `Launch` returns `SwitchNotString` with no event.
- **Initialization ends on any settled status.** The docstring and the `-w` help say the wait lasts until both checks have passed. The code stops as soon as neither check reports 'initializing', so 'impaired' or 'insufficient-data' also end it. The model follows the code.
- **No cancel on some failures.** A terminal status code raises without cancelling, so the batch's other requests stay open. The command-line error message claims that pending requests were cancelled; the code does not do that, and the model follows the code. A resolution error does not cancel either. An interrupt during the initialization wait is outside the `try` that cancels, so it cancels nothing.
- **The cancel call can raise.** The cancel call is `check_output`, which raises on failure. Transport failures are not modelled (see below).

## Model

| member | source | states |
|---|---|---|
| LaunchSpec.ProcessLaunchSpec | launch_ec2_spots.py:89-97 | A missing INSTANCE_COUNT is an error, reported before a missing MAX_SPOT_PRICE. A missing MAX_SPOT_PRICE is an error. On success, both values come back unchanged as count and price, and neither key nor USER_DATA_FILE_NAME is left in the payload. |
| LaunchSpec.DeriveRegion | launch_ec2_spots.py:99-110 | A Placement without a readable string zone is an error and nothing else is. No Placement or an empty zone gives no region and the spec unchanged. A zone ending in a digit is the region and Placement is removed. Any other zone gives the zone minus its last character and the spec unchanged. No other key is touched. |
| LaunchSpec.InsertUserData | launch_ec2_spots.py:112-122 | USER_DATA_FILE_NAME never survives. A non-string name is an error. A non-empty name whose file is missing is an error naming the file, and one whose file exists sets UserData to the encoded contents. An empty or absent name leaves UserData as it was. No other key is touched. |
| LaunchSpec.RegionFromZone | launch_ec2_spots.py:99-110 | A Placement without a readable string zone is an error. No Placement or an empty zone: no region, and Placement stays as it was. A zone ending in a digit: the whole zone is the region, and Placement is removed. Any other last character: the region is the zone minus its last character, and Placement is kept unchanged. |
| LaunchSpec.UserDataFromFile | launch_ec2_spots.py:112-122 | USER_DATA_FILE_NAME never reaches the payload. A non-string name is an error. A non-empty name whose file is missing is an error naming the file. If the file exists, UserData is set to the encoding of its contents. An empty or absent name leaves UserData as the spec had it. |
| LaunchSpec.OtherKeysPassThrough | launch_ec2_spots.py:88-124 | Every key the launcher does not interpret is forwarded with its value unchanged. The payload gains no key except UserData. |
| LaunchSpec.ReprocessingIsStable | launch_ec2_spots.py:75-125 | The transformation is a projection. Putting the switches back into its payload and running it again gives the same switches and payload. The region is also the same, unless a region-only zone consumed Placement. |
| StatusCodes.Classify | launch_ec2_spots.py:181-200 | Each class holds exactly its group of codes: "fulfilled", the six practically-terminal codes, and the four terminal codes. These groups are therefore pairwise disjoint. Every other code is Waiting. |
| StatusCodes.CodeGroupsDisjoint | launch_ec2_spots.py:181-200 | The three code groups are disjoint, with six practically-terminal and four terminal codes. |
| Fulfillment.FirstFailure | launch_ec2_spots.py:179-200 | The returned entry is tracked and has a failing code, and no earlier tracked entry has one. It returns None exactly when no tracked entry fails. |
| Fulfillment.Evaluate | launch_ec2_spots.py:177-200 | The first failing tracked entry decides the failure and carries its code and message. The whole id list is cancelled exactly for a practically-terminal code, and nothing for a terminal code. Otherwise the verdict is Done exactly when the fulfilled tracked entries of this one snapshot reach the number of ids. |
| Fulfillment.EvaluateSnapshot | launch_ec2_spots.py:177-200 | The launcher's loop agrees with Evaluate on every snapshot. The loop resets the waiting count per snapshot, decrements it per fulfilled tracked entry, and raises at the first failing tracked entry. |
| Fulfillment.UntrackedEntriesIgnored | launch_ec2_spots.py:179-180 | Entries whose id is not in the run's list never change the verdict, whatever their code. |
| Fulfillment.DoneOnlyWhenAllFulfilled | launch_ec2_spots.py:168-182 | With one entry per request, Done means every id of the run is reported fulfilled in that same snapshot. |
| Fulfillment.AllFulfilledIsDone | launch_ec2_spots.py:168-182 | With distinct ids, a snapshot with no failing tracked entry that reports every id fulfilled is Done. |
| Fulfillment.PendingRequestKeepsPolling | launch_ec2_spots.py:168-182 | With one entry per request, a snapshot in which some id is not reported fulfilled is never Done. For example, N-1 fulfilled and one pending keeps polling. |
| Fulfillment.PollCycles | launch_ec2_spots.py:169-200 | A decided outcome comes from the first cycle that does not say Continue. Every earlier cycle was an observed snapshot saying Continue. An outcome that is still waiting has read every cycle. |
| Fulfillment.WaitForFulfillment | launch_ec2_spots.py:168-200 | An empty id list returns fulfilled without reading any snapshot. Otherwise the outcome is decided by the first cycle that does not say Continue. |
| Fulfillment.FulfilledWaitSawEveryId | launch_ec2_spots.py:168-182 | With a non-empty batch and one entry per request in every snapshot, a wait that ends fulfilled ended on a snapshot that reports every id of the run fulfilled. |
| Fulfillment.FirstDecisionWins | launch_ec2_spots.py:169-200 | Conversely, the first cycle that does not say Continue fixes the outcome and the number of cycles consumed. |
| Fulfillment.DecisionIsFinal | launch_ec2_spots.py:169-200 | Once the wait has decided, later cycles are never read. |
| Instances.ProjectAll | launch_ec2_spots.py:243 | The projection succeeds exactly when every instance has both addresses, element by element and in order. Otherwise it fails with the error of the first instance that lacks one. |
| Instances.Resolve | launch_ec2_spots.py:242-245 | The comprehension succeeds exactly when every instance owned by this run has both a public and a private address. |
| Instances.ResolveKeepsExactlyOwned | launch_ec2_spots.py:242-245 | Resolution succeeds exactly when every owned instance has both addresses. Every result is the projection of an instance that has a SpotInstanceRequestId of this run. Every such instance is represented. |
| Instances.AllInstancesConcat | launch_ec2_spots.py:244 | Listing the instances keeps reservation order: the listing of two runs of reservations is the first listing followed by the second. |
| Instances.OwnedConcat | launch_ec2_spots.py:244-245 | The ownership filter keeps the order of its input: filtering two concatenated lists gives the two filtered lists, concatenated. |
| Instances.ResolveInstances | launch_ec2_spots.py:242-245 | The nested loop over reservations and their instances gives the same result as the ordered filter-and-project definition. |
| Instances.ResolveReservation | launch_ec2_spots.py:244-245 | The inner loop extends the resolution of the instances seen so far by one reservation's instances. |
| Instances.CountSettledPairs | launch_ec2_spots.py:147-153 | The nested loops count exactly the matching (instance, status) pairs whose two checks are both past 'initializing'. |
| Instances.CompleteIffAllSettled | launch_ec2_spots.py:147-156 | With one status entry per instance, the initialization wait ends exactly when every launched instance has an entry whose two checks have both settled. |
| Instances.WaitForInitialization | launch_ec2_spots.py:138-156 | The wait stops at the first observed snapshot that completes initialization, or at the first interrupt. Every earlier cycle was an observed, incomplete snapshot. |
| Launcher.Launch | launch_ec2_spots.py:203-253 | A spec error, or a count or price that is not a string, makes no provider call. A switch error is reported exactly when the transformed spec has a count or price that is not a string. Otherwise there is exactly one submission, followed by at most one cancellation, and that cancellation covers the whole batch. The failing code is practically-terminal exactly when a cancellation was issued, and terminal exactly when none was. An interrupt during fulfillment cancels and re-raises. Success returns exactly the resolution of this run's instances. Once every request is fulfilled there is no cancellation, and a resolvable (and, when asked, initialized) run is launched with that resolution. |
| Launcher.AfterFulfillment | launch_ec2_spots.py:239-253 | The stage after fulfillment adds no event. A resolution error fails it with that error, and an interrupt during the initialization wait fails it with the interrupt; it fails in no other way. It returns instances only when they are the resolution of this run (and, when asked, initialized), and it does return them in that case. |
| Launcher.AfterSubmission | launch_ec2_spots.py:221-253 | After the one submission, at most one cancellation follows, and it covers the whole batch. A failing code is practically-terminal exactly when a cancellation was issued, and terminal exactly when none was. An interrupt during the fulfillment wait cancels and re-raises. Once every request is fulfilled, the stage after fulfillment decides the result. |
| Launcher.FulfillmentFailureEndsLaunch | launch_ec2_spots.py:183-237 | Take the first cycle that does not say Continue. If it holds a practically-terminal code, the batch is cancelled once and the failure carries that entry's code and message. If it holds a terminal code, the same failure is reported with no cancel. If it is an interrupt, the batch is cancelled once and the interrupt re-raised. |
| Launcher.FulfilledLaunchReturnsResolution | launch_ec2_spots.py:238-253 | A run whose requests are all fulfilled, whose owned instances all have both addresses and, when asked, all finish initializing returns exactly that resolution after the one submission, with no cancellation. |
| Launcher.NoCancelAfterFulfillment | launch_ec2_spots.py:226-253 | After fulfillment the batch is never cancelled. A resolution error fails the launch with that error, and an interrupt during the initialization wait fails it with the interrupt, each after only the submission. |
| Scenarios.ZoneExamples | launch_ec2_spots.py:45-53 | "us-east-1c" gives the region "us-east-1" and keeps Placement. "us-east-1" is itself the region, and Placement is dropped. |
| Scenarios.FulfilledLaunch | launch_ec2_spots.py:203-253 | Two requests are fulfilled one at a time over two snapshots, then both in the third, which ends the wait. The launch returns the two owned instances and leaves out an unrelated one. |
| Scenarios.TerminalFailureLeavesBatchOpen | launch_ec2_spots.py:196-200 | One of two requests reports canceled-before-fulfillment while the other is pending. The launch fails with that code and message after the submission alone, and nothing is cancelled. |
| Scenarios.CapacityFailure | launch_ec2_spots.py:183-195 | One of two requests reports capacity-not-available. Both are cancelled, once, and the failure carries the code and message. |

## Left out

- The AWS CLI invocations are left out as foreign calls. Their shell command strings and `subprocess.check_output` are not modelled. Their responses are inputs: the submitted ids, the snapshot of each cycle, the reservations, and the health snapshots. The calls that change provider state are events.
- Transport failures are left out: a non-zero exit of any CLI call, malformed JSON, or a failure of the cancel call itself.
- A response entry that lacks `Status.Message` or a similar nested key is not modelled. That would be a `KeyError` on provider output.
- `time.sleep` and the unbounded polling are left out. Each wait is a walk over a finite sequence of cycles. When the cycles run out before a decision, the result is "still waiting" (`StillWaiting`, `InitStillWaiting`, `LaunchPending`), where the real loop would keep polling.
- Interrupts are modelled only at the start of a polling cycle. An interrupt inside a provider call, for example during the cancel of a practically-terminal failure, is concurrency/signal behaviour and is not modelled.
- JSON decoding and encoding (`json.loads`, and `json.dumps` with sorted keys) are library behaviour. The spec arrives already decoded, and the payload stays a map.
- Base64 (section 4 of RFC 4648) is an opaque `encode` parameter. Reading the user-data file is the `files` oracle.
- The temporary file `amils_temp.json` and its removal are filesystem side effects. The top-level `__main__` block (argument parsing, printing, exit codes) is not part of this model.
- LaunchSpec.RegionFromZone: the trailing-character test is ASCII '0'-'9'. Python's `str.isdigit` also accepts other Unicode digits.
- LaunchSpec.UserDataFromFile: every non-string `USER_DATA_FILE_NAME` is an error. Python raises a `TypeError` for most such values. For an integer, though, Python consults a file descriptor, and that is not modelled.
- Fulfillment.DoneOnlyWhenAllFulfilled: this assumes each request appears once per snapshot. The launcher counts entries, not distinct ids, and does not check for duplicates.
- Instances.CompleteIffAllSettled: this assumes one status entry per instance. The launcher compares the pair count with `==`, so duplicate entries could keep the count from matching.

=== FILE: collections.dfy ===
/** Small facts about sequences and sets that the counting arguments need. */
module Collections {

  /** No element occurs twice. */
  predicate Distinct<T(==)>(s: seq<T>) {
    forall i, j :: 0 <= i < j < |s| ==> s[i] != s[j]
  }

  /** The set of elements of a sequence. */
  function Elements<T(!new)>(s: seq<T>): (r: set<T>)
    ensures forall x :: x in r <==> x in s
    ensures |r| <= |s|
  {
    if |s| == 0 then {} else {s[0]} + Elements(s[1..])
  }

  /** A sequence without repetitions has as many distinct elements as it has positions. */
  lemma {:induction false} DistinctElements<T(!new)>(s: seq<T>)
    requires Distinct(s)
    ensures |Elements(s)| == |s|
  {
    if |s| > 0 {
      assert Distinct(s[1..]) by {
        forall i, j | 0 <= i < j < |s[1..]|
          ensures s[1..][i] != s[1..][j]
        {
          assert s[1..][i] == s[i + 1] && s[1..][j] == s[j + 1];
        }
      }
      DistinctElements(s[1..]);
      assert s[0] !in s[1..] by {
        forall k | 0 <= k < |s[1..]|
          ensures s[1..][k] != s[0]
        {
          assert s[1..][k] == s[k + 1];
        }
      }
      assert s[0] !in Elements(s[1..]);
    }
  }

  /** A subset is no larger than its superset, and one of equal size is the whole superset. */
  lemma SubsetCardinality<T>(a: set<T>, b: set<T>)
    requires a <= b
    ensures |a| <= |b|
    ensures |a| == |b| ==> a == b
  {
    assert a * b == a;
    assert a + b == b;
    assert |b - a| + |a| == |b| by {
      assert (b - a) !! a;
      assert (b - a) + a == b;
    }
    if |a| == |b| {
      assert |b - a| == 0;
      assert b - a == {};
    }
  }
}

=== FILE: fulfillment.dfy ===
/** The fulfillment poller: each polling cycle reads one snapshot of every spot
    request the provider knows, evaluates it against the request ids of this
    run, and either finishes, fails (possibly cancelling the whole batch) or
    waits for the next cycle. The unbounded loop is modelled as a walk over a
    finite sequence of cycles, each either an observed snapshot or an interrupt. */
module Fulfillment {
  import opened Wrappers
  import opened Collections
  import opened StatusCodes
  import opened Polling

  /** One entry of a describe-spot-instance-requests snapshot. */
  datatype RequestStatus = RequestStatus(requestId: string, code: string, message: string)

  /** A snapshot: the decoded response is either the blank string, which the
      launcher skips, or the list of all spot requests. */
  datatype Snapshot = BlankResponse | Requests(entries: seq<RequestStatus>)

  /** What one cycle decides. A failure carries the offending code and message, and
      the ids cancelled before raising, if any. */
  datatype Verdict = Done | Continue | Fail(code: string, message: string, cancelled: Option<seq<string>>)

  /** An entry about one of this run's requests. */
  predicate Tracked(ids: seq<string>, e: RequestStatus) {
    e.requestId in ids
  }

  /** A tracked entry whose code makes the poller raise. */
  predicate FailingTracked(ids: seq<string>, e: RequestStatus) {
    Tracked(ids, e) && Classify(e.code).Failing?
  }

  /** A tracked entry reporting its request fulfilled. */
  predicate FulfilledTracked(ids: seq<string>, e: RequestStatus) {
    Tracked(ids, e) && e.code == FulfilledCode
  }

  /** The first tracked entry, in snapshot order, whose code is failing. */
  function FirstFailure(ids: seq<string>, es: seq<RequestStatus>): (r: Option<RequestStatus>)
    ensures r.None? <==> forall j :: 0 <= j < |es| ==> !FailingTracked(ids, es[j])
    ensures r.Some? ==> exists k :: 0 <= k < |es| && es[k] == r.value && FailingTracked(ids, es[k])
                                      && forall j :: 0 <= j < k ==> !FailingTracked(ids, es[j])
  {
    if |es| == 0 then None
    else if FailingTracked(ids, es[0]) then Some(es[0])
    else
      var rest := FirstFailure(ids, es[1..]);
      assert forall j :: 1 <= j < |es| ==> es[j] == es[1..][j - 1];
      rest
  }

  /** The number of tracked entries reporting fulfilled. */
  function FulfilledCount(ids: seq<string>, es: seq<RequestStatus>): nat {
    if |es| == 0 then 0
    else (if FulfilledTracked(ids, es[0]) then 1 else 0) + FulfilledCount(ids, es[1..])
  }

  /** The verdict on one snapshot. The first failing tracked entry decides a
      failure: a practically-terminal code cancels every id of the run, a terminal
      one cancels nothing. Without a failure the cycle is done once the fulfilled
      tracked entries number at least the ids; the count restarts from zero on
      every snapshot. A blank response only finishes a run without ids. */
  function Evaluate(ids: seq<string>, snap: Snapshot): (v: Verdict)
    ensures v.Fail? <==> snap.Requests? && FirstFailure(ids, snap.entries).Some?
    ensures v.Fail? ==>
      var e := FirstFailure(ids, snap.entries).value;
      && v.code == e.code && v.message == e.message
      && (v.cancelled == Some(ids) <==> e.code in PracticallyTerminalCodes)
      && (v.cancelled == None <==> e.code in TerminalCodes)
    ensures v == Done <==> !v.Fail? && (snap.Requests? ==> FulfilledCount(ids, snap.entries) >= |ids|)
                                     && (snap.BlankResponse? ==> |ids| == 0)
  {
    match snap
    case BlankResponse => if |ids| > 0 then Continue else Done
    case Requests(es) =>
      match FirstFailure(ids, es)
      case Some(e) =>
        if Classify(e.code) == Failing(PracticallyTerminal) then Fail(e.code, e.message, Some(ids))
        else Fail(e.code, e.message, None)
      case None =>
        if |ids| - FulfilledCount(ids, es) > 0 then Continue else Done
  }

  /** FirstFailure is the entry at the first failing tracked position. */
  lemma FirstFailureAt(ids: seq<string>, es: seq<RequestStatus>, i: nat)
    requires i < |es| && FailingTracked(ids, es[i])
    requires forall j :: 0 <= j < i ==> !FailingTracked(ids, es[j])
    ensures FirstFailure(ids, es) == Some(es[i])
  {
  }

  /** Counting over a concatenation adds up. */
  lemma {:induction false} FulfilledCountAppend(ids: seq<string>, es: seq<RequestStatus>, e: RequestStatus)
    ensures FulfilledCount(ids, es + [e]) == FulfilledCount(ids, es) + (if FulfilledTracked(ids, e) then 1 else 0)
  {
    if |es| > 0 {
      assert (es + [e])[1..] == es[1..] + [e];
      FulfilledCountAppend(ids, es[1..], e);
    }
  }

  /** The launcher's loop over one snapshot: entries in order, the waiting count
      reset to the number of ids and decremented per fulfilled tracked entry, the
      first failing tracked entry raising at once. It agrees with Evaluate. */
  method EvaluateSnapshot(ids: seq<string>, snap: Snapshot) returns (v: Verdict)
    ensures v == Evaluate(ids, snap)
  {
    var waiting: int := |ids|;
    if snap.Requests? {
      var es := snap.entries;
      var i := 0;
      while i < |es|
        invariant 0 <= i <= |es|
        invariant forall j :: 0 <= j < i ==> !FailingTracked(ids, es[j])
        invariant waiting == |ids| - FulfilledCount(ids, es[..i])
      {
        var e := es[i];
        if e.requestId in ids {
          match Classify(e.code)
          case Fulfilled =>
            waiting := waiting - 1;
          case Failing(PracticallyTerminal) =>
            FirstFailureAt(ids, es, i);
            return Fail(e.code, e.message, Some(ids));
          case Failing(Terminal) =>
            FirstFailureAt(ids, es, i);
            return Fail(e.code, e.message, None);
          case Waiting =>
        }
        assert es[..i + 1] == es[..i] + [e];
        FulfilledCountAppend(ids, es[..i], e);
        i := i + 1;
      }
      assert es[..i] == es;
    }
    v := if waiting > 0 then Continue else Done;
  }

  /** The tracked entries of a snapshot, in order. */
  function TrackedOnly(ids: seq<string>, es: seq<RequestStatus>): (r: seq<RequestStatus>)
    ensures forall e :: e in r ==> e in es && Tracked(ids, e)
    ensures forall j :: 0 <= j < |es| && Tracked(ids, es[j]) ==> es[j] in r
  {
    if |es| == 0 then []
    else if Tracked(ids, es[0]) then [es[0]] + TrackedOnly(ids, es[1..])
    else TrackedOnly(ids, es[1..])
  }

  /** Entries about requests outside this run never change the verdict, whatever their code. */
  lemma {:induction false} UntrackedEntriesIgnored(ids: seq<string>, es: seq<RequestStatus>)
    ensures Evaluate(ids, Requests(es)) == Evaluate(ids, Requests(TrackedOnly(ids, es)))
  {
    TrackedOnlyKeepsFailureAndCount(ids, es);
  }

  lemma {:induction false} TrackedOnlyKeepsFailureAndCount(ids: seq<string>, es: seq<RequestStatus>)
    ensures FirstFailure(ids, TrackedOnly(ids, es)) == FirstFailure(ids, es)
    ensures FulfilledCount(ids, TrackedOnly(ids, es)) == FulfilledCount(ids, es)
  {
    if |es| > 0 {
      TrackedOnlyKeepsFailureAndCount(ids, es[1..]);
      if Tracked(ids, es[0]) {
        assert ([es[0]] + TrackedOnly(ids, es[1..]))[1..] == TrackedOnly(ids, es[1..]);
      }
    }
  }

  /** The ids of the requests a snapshot reports fulfilled, among this run's. */
  function FulfilledIds(ids: seq<string>, es: seq<RequestStatus>): (r: set<string>)
    ensures r <= Elements(ids)
    ensures forall x :: x in r <==> exists j :: 0 <= j < |es| && es[j].requestId == x && FulfilledTracked(ids, es[j])
  {
    if |es| == 0 then {}
    else
      var rest := FulfilledIds(ids, es[1..]);
      assert forall j :: 1 <= j < |es| ==> es[j] == es[1..][j - 1];
      (if FulfilledTracked(ids, es[0]) then {es[0].requestId} else {}) + rest
  }

  /** Every fulfilled id is counted at least once. */
  lemma {:induction false} FulfilledIdsAtMostCount(ids: seq<string>, es: seq<RequestStatus>)
    ensures |FulfilledIds(ids, es)| <= FulfilledCount(ids, es)
  {
    if |es| > 0 {
      FulfilledIdsAtMostCount(ids, es[1..]);
    }
  }

  /** Each request appears at most once in a snapshot. */
  predicate UniqueRequests(es: seq<RequestStatus>) {
    forall i, j :: 0 <= i < j < |es| ==> es[i].requestId != es[j].requestId
  }

  /** With one entry per request, the fulfilled count is the number of distinct fulfilled ids. */
  lemma {:induction false} CountIsDistinctIds(ids: seq<string>, es: seq<RequestStatus>)
    requires UniqueRequests(es)
    ensures FulfilledCount(ids, es) == |FulfilledIds(ids, es)|
  {
    if |es| > 0 {
      assert UniqueRequests(es[1..]) by {
        forall i, j | 0 <= i < j < |es[1..]|
          ensures es[1..][i].requestId != es[1..][j].requestId
        {
          assert es[1..][i] == es[i + 1] && es[1..][j] == es[j + 1];
        }
      }
      CountIsDistinctIds(ids, es[1..]);
      if FulfilledTracked(ids, es[0]) {
        assert es[0].requestId !in FulfilledIds(ids, es[1..]) by {
          forall j | 0 <= j < |es[1..]|
            ensures es[1..][j].requestId != es[0].requestId
          {
            assert es[1..][j] == es[j + 1];
          }
        }
      }
    }
  }

  /** The request `id` is reported fulfilled somewhere in the snapshot. */
  predicate ObservedFulfilled(es: seq<RequestStatus>, id: string) {
    exists j :: 0 <= j < |es| && es[j].requestId == id && es[j].code == FulfilledCode
  }

  /** When each request appears once in the snapshot, a Done verdict means every
      id of the run is reported fulfilled in that same snapshot. */
  lemma DoneOnlyWhenAllFulfilled(ids: seq<string>, es: seq<RequestStatus>)
    requires UniqueRequests(es)
    requires Evaluate(ids, Requests(es)) == Done
    ensures forall id :: id in ids ==> ObservedFulfilled(es, id)
  {
    CountIsDistinctIds(ids, es);
    var fulfilled := FulfilledIds(ids, es);
    SubsetCardinality(fulfilled, Elements(ids));
    assert fulfilled == Elements(ids);
    forall id | id in ids
      ensures ObservedFulfilled(es, id)
    {
      assert id in fulfilled;
    }
  }

  /** When the run's ids are distinct, a snapshot with no failing tracked entry
      that reports every id fulfilled is Done. */
  lemma AllFulfilledIsDone(ids: seq<string>, es: seq<RequestStatus>)
    requires Distinct(ids)
    requires forall j :: 0 <= j < |es| ==> !FailingTracked(ids, es[j])
    requires forall id :: id in ids ==> ObservedFulfilled(es, id)
    ensures Evaluate(ids, Requests(es)) == Done
  {
    var fulfilled := FulfilledIds(ids, es);
    forall id | id in Elements(ids)
      ensures id in fulfilled
    {
      var j :| 0 <= j < |es| && es[j].requestId == id && es[j].code == FulfilledCode;
      assert FulfilledTracked(ids, es[j]);
    }
    assert fulfilled == Elements(ids);
    DistinctElements(ids);
    FulfilledIdsAtMostCount(ids, es);
  }

  /** Hence, with unique entries, a snapshot in which some id is not reported
      fulfilled (N-1 fulfilled and one pending, say) keeps polling or fails; it
      never finishes. */
  lemma PendingRequestKeepsPolling(ids: seq<string>, es: seq<RequestStatus>, pending: string)
    requires UniqueRequests(es)
    requires pending in ids && !ObservedFulfilled(es, pending)
    ensures Evaluate(ids, Requests(es)) != Done
  {
    if Evaluate(ids, Requests(es)) == Done {
      DoneOnlyWhenAllFulfilled(ids, es);
    }
  }

  /** The outcome of the fulfillment wait. */
  datatype FulfillOutcome =
    | AllFulfilled
    | ProvisioningFailed(code: string, message: string, cancelled: Option<seq<string>>)
    | WaitInterrupted
      /** The cycles ran out before a decision: the real loop would keep polling. */
    | StillWaiting

  /** An outcome together with the number of cycles it consumed. */
  datatype Polled = Polled(outcome: FulfillOutcome, cycles: nat)

  /** The first `k` cycles were all observed snapshots that said Continue. */
  ghost predicate ContinuedThrough(ids: seq<string>, ticks: seq<Tick<Snapshot>>, k: nat)
    requires k <= |ticks|
  {
    forall j :: 0 <= j < k ==> ticks[j].Observed? && Evaluate(ids, ticks[j].snapshot) == Continue
  }

  /** The outcome a deciding cycle leads to. */
  ghost predicate DecidedBy(ids: seq<string>, t: Tick<Snapshot>, outcome: FulfillOutcome) {
    match t
    case Interrupted => outcome == WaitInterrupted
    case Observed(s) =>
      match Evaluate(ids, s)
      case Done => outcome == AllFulfilled
      case Continue => false
      case Fail(code, message, cancelled) => outcome == ProvisioningFailed(code, message, cancelled)
  }

  /** Polling cycle after cycle until one decides. */
  function PollCycles(ids: seq<string>, ticks: seq<Tick<Snapshot>>): (r: Polled)
    ensures r.outcome != StillWaiting ==>
      0 < r.cycles <= |ticks| && ContinuedThrough(ids, ticks, r.cycles - 1) && DecidedBy(ids, ticks[r.cycles - 1], r.outcome)
    ensures r.outcome == StillWaiting ==> r.cycles == |ticks| && ContinuedThrough(ids, ticks, |ticks|)
  {
    if |ticks| == 0 then
      Polled(StillWaiting, 0)
    else
      match ticks[0]
      case Interrupted => Polled(WaitInterrupted, 1)
      case Observed(s) =>
        match Evaluate(ids, s)
        case Done => Polled(AllFulfilled, 1)
        case Fail(code, message, cancelled) => Polled(ProvisioningFailed(code, message, cancelled), 1)
        case Continue =>
          var rest := PollCycles(ids, ticks[1..]);
          assert forall j :: 1 <= j < |ticks| ==> ticks[j] == ticks[1..][j - 1];
          Polled(rest.outcome, rest.cycles + 1)
  }

  /** The fulfillment wait: the loop runs while the waiting count is positive, so a
      run without ids returns at once without reading any snapshot; otherwise the
      cycles are polled until one decides. */
  function WaitForFulfillment(ids: seq<string>, ticks: seq<Tick<Snapshot>>): (r: Polled)
    ensures |ids| == 0 ==> r == Polled(AllFulfilled, 0)
    ensures |ids| > 0 && r.outcome != StillWaiting ==>
      0 < r.cycles <= |ticks| && ContinuedThrough(ids, ticks, r.cycles - 1) && DecidedBy(ids, ticks[r.cycles - 1], r.outcome)
    ensures |ids| > 0 && r.outcome == StillWaiting ==> ContinuedThrough(ids, ticks, |ticks|)
  {
    if |ids| == 0 then Polled(AllFulfilled, 0) else PollCycles(ids, ticks)
  }

  /** Conversely, the first cycle that does not say Continue decides the wait,
      after exactly that many cycles. */
  lemma FirstDecisionWins(ids: seq<string>, ticks: seq<Tick<Snapshot>>, k: nat, outcome: FulfillOutcome)
    requires |ids| > 0 && k < |ticks|
    requires ContinuedThrough(ids, ticks, k) && DecidedBy(ids, ticks[k], outcome)
    ensures WaitForFulfillment(ids, ticks) == Polled(outcome, k + 1)
  {
    PollCyclesFirstDecision(ids, ticks, k, outcome);
  }

  lemma {:induction false} PollCyclesFirstDecision(ids: seq<string>, ticks: seq<Tick<Snapshot>>, k: nat, outcome: FulfillOutcome)
    requires k < |ticks|
    requires ContinuedThrough(ids, ticks, k) && DecidedBy(ids, ticks[k], outcome)
    ensures PollCycles(ids, ticks) == Polled(outcome, k + 1)
  {
    if k > 0 {
      assert ticks[0].Observed? && Evaluate(ids, ticks[0].snapshot) == Continue;
      assert ContinuedThrough(ids, ticks[1..], k - 1) by {
        forall j | 0 <= j < k - 1
          ensures ticks[1..][j].Observed? && Evaluate(ids, ticks[1..][j].snapshot) == Continue
        {
          assert ticks[1..][j] == ticks[j + 1];
        }
      }
      assert ticks[1..][k - 1] == ticks[k];
      PollCyclesFirstDecision(ids, ticks[1..], k - 1, outcome);
    }
  }

  /** The wait never reports every request fulfilled before one snapshot has
      shown every id of the run fulfilled at once, when snapshots list each
      request once. */
  lemma FulfilledWaitSawEveryId(ids: seq<string>, ticks: seq<Tick<Snapshot>>)
    requires |ids| > 0
    requires forall j :: 0 <= j < |ticks| && ticks[j].Observed? && ticks[j].snapshot.Requests? ==>
      UniqueRequests(ticks[j].snapshot.entries)
    requires WaitForFulfillment(ids, ticks).outcome == AllFulfilled
    ensures var k := WaitForFulfillment(ids, ticks).cycles - 1;
      && ticks[k].Observed? && ticks[k].snapshot.Requests?
      && forall id :: id in ids ==> ObservedFulfilled(ticks[k].snapshot.entries, id)
  {
    var k := WaitForFulfillment(ids, ticks).cycles - 1;
    assert Evaluate(ids, ticks[k].snapshot) == Done;
    DoneOnlyWhenAllFulfilled(ids, ticks[k].snapshot.entries);
  }

  /** Once a cycle decides, later cycles are never read: extending the sequence of
      cycles does not change a decided outcome. */
  lemma {:induction false} DecisionIsFinal(ids: seq<string>, ticks: seq<Tick<Snapshot>>, later: seq<Tick<Snapshot>>)
    requires WaitForFulfillment(ids, ticks).outcome != StillWaiting
    ensures WaitForFulfillment(ids, ticks + later) == WaitForFulfillment(ids, ticks)
  {
    if |ids| > 0 {
      PollCyclesDecisionIsFinal(ids, ticks, later);
    }
  }

  lemma {:induction false} PollCyclesDecisionIsFinal(ids: seq<string>, ticks: seq<Tick<Snapshot>>, later: seq<Tick<Snapshot>>)
    requires PollCycles(ids, ticks).outcome != StillWaiting
    ensures PollCycles(ids, ticks + later) == PollCycles(ids, ticks)
  {
    assert (ticks + later)[0] == ticks[0];
    if ticks[0].Observed? && Evaluate(ids, ticks[0].snapshot) == Continue {
      assert (ticks + later)[1..] == ticks[1..] + later;
      PollCyclesDecisionIsFinal(ids, ticks[1..], later);
    }
  }
}

=== FILE: instances.dfy ===
/** Instance resolution and the initialization check: after fulfillment the
    launcher lists every instance the provider runs, keeps those launched for this
    run's spot requests, and optionally waits until their health checks have left
    the 'initializing' state. */
module Instances {
  import opened Wrappers
  import opened Collections
  import opened Polling

  /** One instance of a describe-instances response. Absent keys are None. */
  datatype Instance = Instance(
    instanceId: string,
    spotRequestId: Option<string>,
    publicIp: Option<string>,
    privateIp: Option<string>)

  /** A reservation groups the instances launched together. */
  datatype Reservation = Reservation(instances: seq<Instance>)

  /** What the launcher returns for each of its instances. */
  datatype LaunchedInstance = LaunchedInstance(instanceId: string, publicIp: string, privateIp: string)

  const PublicIpKey := "PublicIpAddress"
  const PrivateIpKey := "PrivateIpAddress"

  /** The projection indexes the address keys directly: an owned instance without
      one raises a KeyError naming the key. */
  datatype ResolveError = MissingKey(key: string)

  /** Every instance, reservation after reservation, in order. */
  function AllInstances(rs: seq<Reservation>): (r: seq<Instance>)
    ensures forall inst :: inst in r <==> exists i :: 0 <= i < |rs| && inst in rs[i].instances
  {
    if |rs| == 0 then []
    else
      var rest := AllInstances(rs[1..]);
      assert forall i :: 1 <= i < |rs| ==> rs[i] == rs[1..][i - 1];
      rs[0].instances + rest
  }

  /** The instance was launched for one of this run's spot requests. */
  predicate Owned(ids: seq<string>, inst: Instance) {
    inst.spotRequestId.Some? && inst.spotRequestId.value in ids
  }

  /** The owned instances, in order. */
  function OwnedInstances(ids: seq<string>, insts: seq<Instance>): (r: seq<Instance>)
    ensures forall inst :: inst in r <==> inst in insts && Owned(ids, inst)
  {
    if |insts| == 0 then []
    else if Owned(ids, insts[0]) then [insts[0]] + OwnedInstances(ids, insts[1..])
    else OwnedInstances(ids, insts[1..])
  }

  /** The projection of one instance, failing on a missing address (public first). */
  function Project(inst: Instance): Result<LaunchedInstance, ResolveError> {
    if inst.publicIp.None? then Failure(MissingKey(PublicIpKey))
    else if inst.privateIp.None? then Failure(MissingKey(PrivateIpKey))
    else Success(LaunchedInstance(inst.instanceId, inst.publicIp.value, inst.privateIp.value))
  }

  /** Projects a list of instances in order, stopping at the first that cannot be projected. */
  function ProjectAll(insts: seq<Instance>): (r: Result<seq<LaunchedInstance>, ResolveError>)
    ensures r.Success? <==> forall i :: 0 <= i < |insts| ==> Project(insts[i]).Success?
    ensures r.Success? ==>
      && |r.value| == |insts|
      && forall i :: 0 <= i < |insts| ==> Project(insts[i]) == Success(r.value[i])
    ensures r.Failure? ==>
      exists k :: 0 <= k < |insts| && Project(insts[k]) == Failure(r.error)
                  && forall i :: 0 <= i < k ==> Project(insts[i]).Success?
  {
    if |insts| == 0 then Success([])
    else
      var head :- Project(insts[0]);
      assert forall i :: 1 <= i < |insts| ==> insts[i] == insts[1..][i - 1];
      var tail := ProjectAll(insts[1..]);
      match tail
      case Failure(e) =>
        assert exists k :: 1 <= k < |insts| && Project(insts[k]) == Failure(e)
          && forall i :: 0 <= i < k ==> Project(insts[i]).Success? by {
          var k :| 0 <= k < |insts[1..]| && Project(insts[1..][k]) == Failure(e)
            && forall i :: 0 <= i < k ==> Project(insts[1..][i]).Success?;
          assert forall i :: 1 <= i < k + 1 ==> Project(insts[i]).Success?;
          assert Project(insts[k + 1]) == Failure(e);
        }
        Failure(e)
      case Success(rest) => Success([head] + rest)
  }

  /** The launcher's comprehension: the owned instances of every reservation, in
      reservation-then-instance order, each projected to its id and two addresses. */
  function Resolve(ids: seq<string>, rs: seq<Reservation>): (r: Result<seq<LaunchedInstance>, ResolveError>)
    ensures r.Success? <==>
      forall inst :: inst in AllInstances(rs) && Owned(ids, inst) ==> inst.publicIp.Some? && inst.privateIp.Some?
  {
    ProjectAll(OwnedInstances(ids, AllInstances(rs)))
  }

  /** Resolution keeps exactly the instances of this run: it succeeds when every
      owned instance has both addresses, and then each result is the projection of
      an owned instance, every owned instance is represented, and an instance
      launched for another request never appears. */
  lemma ResolveKeepsExactlyOwned(ids: seq<string>, rs: seq<Reservation>)
    ensures Resolve(ids, rs).Success? <==>
      forall inst :: inst in AllInstances(rs) && Owned(ids, inst) ==> inst.publicIp.Some? && inst.privateIp.Some?
    ensures Resolve(ids, rs).Success? ==>
      var launched := Resolve(ids, rs).value;
      && (forall li :: li in launched ==>
            exists inst :: inst in AllInstances(rs) && Owned(ids, inst) && Project(inst) == Success(li))
      && (forall inst :: inst in AllInstances(rs) && Owned(ids, inst) ==> Project(inst).Success? && Project(inst).value in launched)
    ensures Resolve(ids, rs).Failure? ==>
      exists inst :: inst in AllInstances(rs) && Owned(ids, inst) && Project(inst) == Failure(Resolve(ids, rs).error)
  {
  }

  /** The comprehension as the launcher runs it: reservations in order, and
      within each the owned instances appended by ResolveReservation. */
  method ResolveInstances(ids: seq<string>, rs: seq<Reservation>) returns (r: Result<seq<LaunchedInstance>, ResolveError>)
    ensures r == Resolve(ids, rs)
  {
    var launched: seq<LaunchedInstance> := [];
    var i := 0;
    while i < |rs|
      invariant 0 <= i <= |rs|
      invariant ProjectAll(OwnedInstances(ids, AllInstances(rs[..i]))) == Success(launched)
    {
      AllInstancesAppend(rs[..i], rs[i]);
      assert rs[..i + 1] == rs[..i] + [rs[i]];
      var step := ResolveReservation(ids, AllInstances(rs[..i]), rs[i].instances, launched);
      if step.Failure? {
        FailureIsFinal(ids, rs, i + 1);
        return step;
      }
      launched := step.value;
      i := i + 1;
    }
    assert rs[..i] == rs;
    r := Success(launched);
  }

  /** The inner loop over one reservation's instances: given the projections of
      the instances seen so far, appends those of the owned instances in `insts`. */
  method ResolveReservation(ids: seq<string>, seen: seq<Instance>, insts: seq<Instance>, launched: seq<LaunchedInstance>)
    returns (r: Result<seq<LaunchedInstance>, ResolveError>)
    requires ProjectAll(OwnedInstances(ids, seen)) == Success(launched)
    ensures r == ProjectAll(OwnedInstances(ids, seen + insts))
  {
    var acc := launched;
    var j := 0;
    assert seen + insts[..0] == seen;
    while j < |insts|
      invariant 0 <= j <= |insts|
      invariant ProjectAll(OwnedInstances(ids, seen + insts[..j])) == Success(acc)
    {
      var inst := insts[j];
      assert seen + insts[..j + 1] == (seen + insts[..j]) + [inst];
      ResolveStep(ids, seen + insts[..j], inst, acc);
      if Owned(ids, inst) {
        match Project(inst)
        case Failure(e) =>
          ResolveFailureRest(ids, seen, insts, j + 1);
          return Failure(e);
        case Success(li) =>
          acc := acc + [li];
      }
      j := j + 1;
    }
    assert insts[..j] == insts;
    r := Success(acc);
  }

  /** One more instance: an unowned one changes nothing, an owned one appends its
      projection or turns the resolution into its failure. */
  lemma ResolveStep(ids: seq<string>, prefix: seq<Instance>, inst: Instance, acc: seq<LaunchedInstance>)
    requires ProjectAll(OwnedInstances(ids, prefix)) == Success(acc)
    ensures !Owned(ids, inst) ==> ProjectAll(OwnedInstances(ids, prefix + [inst])) == Success(acc)
    ensures Owned(ids, inst) && Project(inst).Success? ==>
      ProjectAll(OwnedInstances(ids, prefix + [inst])) == Success(acc + [Project(inst).value])
    ensures Owned(ids, inst) && Project(inst).Failure? ==>
      ProjectAll(OwnedInstances(ids, prefix + [inst])) == Failure(Project(inst).error)
  {
    OwnedAppend(ids, prefix, inst);
    if Owned(ids, inst) {
      ProjectAllAppend(OwnedInstances(ids, prefix), inst);
    } else {
      assert OwnedInstances(ids, prefix) + [] == OwnedInstances(ids, prefix);
    }
  }

  /** A failure among the first `j` instances of a reservation is the failure of the whole reservation. */
  lemma ResolveFailureRest(ids: seq<string>, seen: seq<Instance>, insts: seq<Instance>, j: nat)
    requires j <= |insts|
    requires ProjectAll(OwnedInstances(ids, seen + insts[..j])).Failure?
    ensures ProjectAll(OwnedInstances(ids, seen + insts)) == ProjectAll(OwnedInstances(ids, seen + insts[..j]))
  {
    assert insts == insts[..j] + insts[j..];
    assert seen + insts == (seen + insts[..j]) + insts[j..];
    OwnedConcat(ids, seen + insts[..j], insts[j..]);
    ProjectAllFailurePersists(OwnedInstances(ids, seen + insts[..j]), OwnedInstances(ids, insts[j..]));
  }

  lemma {:induction false} OwnedAppend(ids: seq<string>, insts: seq<Instance>, inst: Instance)
    ensures OwnedInstances(ids, insts + [inst]) == OwnedInstances(ids, insts) + (if Owned(ids, inst) then [inst] else [])
  {
    if |insts| > 0 {
      assert (insts + [inst])[1..] == insts[1..] + [inst];
      OwnedAppend(ids, insts[1..], inst);
    }
  }

  lemma {:induction false} OwnedConcat(ids: seq<string>, a: seq<Instance>, b: seq<Instance>)
    ensures OwnedInstances(ids, a + b) == OwnedInstances(ids, a) + OwnedInstances(ids, b)
  {
    if |a| > 0 {
      assert (a + b)[1..] == a[1..] + b;
      OwnedConcat(ids, a[1..], b);
    } else {
      assert a + b == b;
    }
  }

  lemma {:induction false} AllInstancesAppend(rs: seq<Reservation>, last: Reservation)
    ensures AllInstances(rs + [last]) == AllInstances(rs) + last.instances
  {
    if |rs| > 0 {
      assert (rs + [last])[1..] == rs[1..] + [last];
      AllInstancesAppend(rs[1..], last);
    }
  }

  lemma {:induction false} AllInstancesConcat(rs: seq<Reservation>, more: seq<Reservation>)
    ensures AllInstances(rs + more) == AllInstances(rs) + AllInstances(more)
  {
    if |rs| > 0 {
      assert (rs + more)[1..] == rs[1..] + more;
      AllInstancesConcat(rs[1..], more);
    } else {
      assert rs + more == more;
    }
  }

  lemma {:induction false} ProjectAllAppend(insts: seq<Instance>, inst: Instance)
    requires ProjectAll(insts).Success?
    ensures Project(inst).Success? ==> ProjectAll(insts + [inst]) == Success(ProjectAll(insts).value + [Project(inst).value])
    ensures Project(inst).Failure? ==> ProjectAll(insts + [inst]) == Failure(Project(inst).error)
  {
    if |insts| > 0 {
      var h := Project(insts[0]).value;
      var t := ProjectAll(insts[1..]).value;
      assert ProjectAll(insts).value == [h] + t;
      assert (insts + [inst])[0] == insts[0];
      assert (insts + [inst])[1..] == insts[1..] + [inst];
      ProjectAllAppend(insts[1..], inst);
      if Project(inst).Success? {
        var li := Project(inst).value;
        assert ProjectAll(insts + [inst]) == Success([h] + (t + [li]));
        assert [h] + (t + [li]) == ([h] + t) + [li];
      }
    } else {
      assert insts + [inst] == [inst];
      assert [inst][1..] == [];
      if Project(inst).Success? {
        var li := Project(inst).value;
        assert ProjectAll([inst]) == Success([li] + []);
        assert [li] + [] == ProjectAll(insts).value + [li];
      }
    }
  }

  lemma {:induction false} ProjectAllFailurePersists(insts: seq<Instance>, more: seq<Instance>)
    requires ProjectAll(insts).Failure?
    ensures ProjectAll(insts + more) == ProjectAll(insts)
  {
    if Project(insts[0]).Success? {
      assert (insts + more)[1..] == insts[1..] + more;
      ProjectAllFailurePersists(insts[1..], more);
    }
  }

  /** A failed resolution of the first reservations is the failure of the whole resolution. */
  lemma FailureIsFinal(ids: seq<string>, rs: seq<Reservation>, i: nat)
    requires i <= |rs|
    requires ProjectAll(OwnedInstances(ids, AllInstances(rs[..i]))).Failure?
    ensures Resolve(ids, rs) == ProjectAll(OwnedInstances(ids, AllInstances(rs[..i])))
  {
    assert rs == rs[..i] + rs[i..];
    AllInstancesConcat(rs[..i], rs[i..]);
    OwnedConcat(ids, AllInstances(rs[..i]), AllInstances(rs[i..]));
    ProjectAllFailurePersists(OwnedInstances(ids, AllInstances(rs[..i])), OwnedInstances(ids, AllInstances(rs[i..])));
  }

  /** The health-check status that means a check has not finished. */
  const InitializingStatus := "initializing"

  /** One entry of a describe-instance-status snapshot. */
  datatype InstanceHealth = InstanceHealth(instanceId: string, systemStatus: string, instanceStatus: string)

  /** Both checks of the entry have left the initializing state. */
  predicate Settled(h: InstanceHealth) {
    h.systemStatus != InitializingStatus && h.instanceStatus != InitializingStatus
  }

  /** The number of settled entries about the given instance. */
  function SettledEntries(id: string, statuses: seq<InstanceHealth>): nat {
    if |statuses| == 0 then 0
    else (if statuses[0].instanceId == id && Settled(statuses[0]) then 1 else 0) + SettledEntries(id, statuses[1..])
  }

  /** The launcher's `oks`: the number of (launched instance, status entry) pairs
      with matching ids whose checks have both settled. */
  function SettledPairs(launched: seq<LaunchedInstance>, statuses: seq<InstanceHealth>): nat {
    if |launched| == 0 then 0
    else SettledEntries(launched[0].instanceId, statuses) + SettledPairs(launched[1..], statuses)
  }

  /** One initialization cycle ends the wait when the settled pairs number exactly the launched instances. */
  predicate InitializationComplete(launched: seq<LaunchedInstance>, statuses: seq<InstanceHealth>) {
    SettledPairs(launched, statuses) == |launched|
  }

  /** The launcher's nested loops computing `oks`, instances outside, status entries inside. */
  method CountSettledPairs(launched: seq<LaunchedInstance>, statuses: seq<InstanceHealth>) returns (oks: nat)
    ensures oks == SettledPairs(launched, statuses)
  {
    oks := 0;
    var i := 0;
    while i < |launched|
      invariant 0 <= i <= |launched|
      invariant oks + SettledPairs(launched[i..], statuses) == SettledPairs(launched, statuses)
    {
      var j := 0;
      var found := 0;
      while j < |statuses|
        invariant 0 <= j <= |statuses|
        invariant found + SettledEntries(launched[i].instanceId, statuses[j..]) == SettledEntries(launched[i].instanceId, statuses)
      {
        var status := statuses[j];
        if launched[i].instanceId == status.instanceId
          && status.systemStatus != InitializingStatus
          && status.instanceStatus != InitializingStatus {
          found := found + 1;
        }
        assert statuses[j..][1..] == statuses[j + 1..];
        j := j + 1;
      }
      oks := oks + found;
      assert launched[i..][1..] == launched[i + 1..];
      i := i + 1;
    }
  }

  /** Each instance has at most one status entry. */
  predicate UniqueStatuses(statuses: seq<InstanceHealth>) {
    forall i, j :: 0 <= i < j < |statuses| ==> statuses[i].instanceId != statuses[j].instanceId
  }

  /** The instance has an entry in the snapshot whose checks have both settled. */
  predicate HasSettledEntry(statuses: seq<InstanceHealth>, id: string) {
    exists j :: 0 <= j < |statuses| && statuses[j].instanceId == id && Settled(statuses[j])
  }

  lemma {:induction false} SettledEntriesAtMostOne(id: string, statuses: seq<InstanceHealth>)
    requires UniqueStatuses(statuses)
    ensures SettledEntries(id, statuses) <= 1
    ensures SettledEntries(id, statuses) == 1 <==> HasSettledEntry(statuses, id)
  {
    if |statuses| > 0 {
      var tail := statuses[1..];
      assert UniqueStatuses(tail) by {
        forall i, j | 0 <= i < j < |tail|
          ensures tail[i].instanceId != tail[j].instanceId
        {
          assert tail[i] == statuses[i + 1] && tail[j] == statuses[j + 1];
        }
      }
      SettledEntriesAtMostOne(id, tail);
      if statuses[0].instanceId == id {
        NoEntryNoCount(id, tail);
      }
      assert HasSettledEntry(statuses, id) <==>
        (statuses[0].instanceId == id && Settled(statuses[0])) || HasSettledEntry(tail, id) by {
        if HasSettledEntry(tail, id) {
          var j :| 0 <= j < |tail| && tail[j].instanceId == id && Settled(tail[j]);
          assert statuses[j + 1] == tail[j];
        }
        if HasSettledEntry(statuses, id) && !(statuses[0].instanceId == id && Settled(statuses[0])) {
          var j :| 0 <= j < |statuses| && statuses[j].instanceId == id && Settled(statuses[j]);
          assert tail[j - 1] == statuses[j];
        }
      }
    }
  }

  lemma {:induction false} NoEntryNoCount(id: string, tail: seq<InstanceHealth>)
    requires forall j :: 0 <= j < |tail| ==> tail[j].instanceId != id
    ensures SettledEntries(id, tail) == 0
  {
    if |tail| > 0 {
      assert forall j :: 0 <= j < |tail[1..]| ==> tail[1..][j] == tail[j + 1];
      NoEntryNoCount(id, tail[1..]);
    }
  }

  /** When each instance has at most one status entry, the wait ends exactly when
      every launched instance has an entry with both checks settled. */
  lemma {:induction false} CompleteIffAllSettled(launched: seq<LaunchedInstance>, statuses: seq<InstanceHealth>)
    requires UniqueStatuses(statuses)
    ensures InitializationComplete(launched, statuses) <==>
      forall i :: 0 <= i < |launched| ==> HasSettledEntry(statuses, launched[i].instanceId)
  {
    PairsAtMostLength(launched, statuses);
  }

  lemma {:induction false} PairsAtMostLength(launched: seq<LaunchedInstance>, statuses: seq<InstanceHealth>)
    requires UniqueStatuses(statuses)
    ensures SettledPairs(launched, statuses) <= |launched|
    ensures SettledPairs(launched, statuses) == |launched| <==>
      forall i :: 0 <= i < |launched| ==> HasSettledEntry(statuses, launched[i].instanceId)
  {
    if |launched| > 0 {
      SettledEntriesAtMostOne(launched[0].instanceId, statuses);
      PairsAtMostLength(launched[1..], statuses);
      assert forall i :: 1 <= i < |launched| ==> launched[i] == launched[1..][i - 1];
    }
  }

  /** The outcome of the initialization wait. */
  datatype InitOutcome = Initialized | InitInterrupted | InitStillWaiting

  /** The wait loop runs at least once, even for an empty list, and stops at the
      first observed snapshot that completes initialization. */
  function WaitForInitialization(launched: seq<LaunchedInstance>, ticks: seq<Tick<seq<InstanceHealth>>>): (r: InitOutcome)
    ensures r == Initialized <==>
      exists k :: 0 <= k < |ticks| && InitDecidedAt(launched, ticks, k)
                  && ticks[k].Observed? && InitializationComplete(launched, ticks[k].snapshot)
    ensures r == InitInterrupted <==> exists k :: 0 <= k < |ticks| && InitDecidedAt(launched, ticks, k) && ticks[k].Interrupted?
  {
    if |ticks| == 0 then InitStillWaiting
    else
      match ticks[0]
      case Interrupted =>
        assert InitDecidedAt(launched, ticks, 0);
        InitInterrupted
      case Observed(statuses) =>
        if InitializationComplete(launched, statuses) then
          assert InitDecidedAt(launched, ticks, 0);
          Initialized
        else
          var rest := WaitForInitialization(launched, ticks[1..]);
          InitDecidedShift(launched, ticks);
          rest
  }

  /** Every cycle before `k` was an observed, incomplete snapshot. */
  ghost predicate InitDecidedAt(launched: seq<LaunchedInstance>, ticks: seq<Tick<seq<InstanceHealth>>>, k: nat)
    requires k < |ticks|
  {
    forall j :: 0 <= j < k ==> ticks[j].Observed? && !InitializationComplete(launched, ticks[j].snapshot)
  }

  /** Dropping an observed, incomplete first cycle shifts every decision point by one. */
  lemma InitDecidedShift(launched: seq<LaunchedInstance>, ticks: seq<Tick<seq<InstanceHealth>>>)
    requires |ticks| > 0 && ticks[0].Observed? && !InitializationComplete(launched, ticks[0].snapshot)
    ensures forall k :: 0 < k < |ticks| ==> (InitDecidedAt(launched, ticks, k) <==> InitDecidedAt(launched, ticks[1..], k - 1))
  {
  }
}

=== FILE: launch_spec.dfy ===
/** The launch-spec transformation of the launcher: a decoded JSON launch
    specification is split into the two launcher switches (instance count and
    maximum spot price), an optional region scope derived from
    Placement.AvailabilityZone, and the payload forwarded to the provider, in
    which a user-data file reference has been replaced by the file's encoded
    contents. */
module LaunchSpec {
  import opened Wrappers

  /** A decoded JSON value. Numbers keep their literal text: the launcher never
      does arithmetic on them. */
  datatype Value =
    | Null
    | Bool(b: bool)
    | Number(literal: string)
    | Str(s: string)
    | Array(items: seq<Value>)
    | Object(fields: map<string, Value>)

  /** A launch specification: the top-level JSON object. */
  type Spec = map<string, Value>

  /** The file system as the launcher sees it: the regular files that exist, with their text. */
  type Files = map<string, string>

  const InstanceCountKey := "INSTANCE_COUNT"
  const MaxSpotPriceKey := "MAX_SPOT_PRICE"
  const PlacementKey := "Placement"
  const AvailabilityZoneKey := "AvailabilityZone"
  const UserDataFileKey := "USER_DATA_FILE_NAME"
  const UserDataKey := "UserData"

  /** The errors the transformation raises. */
  datatype SpecError =
    | MissingInstanceCount
    | MissingMaxSpotPrice
      /** Placement is not an object with a string AvailabilityZone (a KeyError or TypeError in the launcher). */
    | MalformedPlacement
      /** USER_DATA_FILE_NAME is not a string. */
    | MalformedUserDataFileName
    | UserDataFileNotFound(fileName: string)

  /** What the transformation yields: the two switches, the region scope, and the provider payload. */
  datatype LaunchParams = LaunchParams(instanceCount: Value, maxSpotPrice: Value, region: Option<string>, payload: Spec)

  /** The character test applied to the zone's last character (ASCII digits). */
  predicate IsDigit(c: char) {
    '0' <= c <= '9'
  }

  /** The AvailabilityZone string of a Placement value, when it is an object holding one. */
  function ZoneString(placement: Value): Option<string> {
    if placement.Object? && AvailabilityZoneKey in placement.fields && placement.fields[AvailabilityZoneKey].Str? then
      Some(placement.fields[AvailabilityZoneKey].s)
    else
      None
  }

  /** The spec carries a Placement the launcher cannot read a zone string from. */
  predicate PlacementMalformed(spec: Spec) {
    PlacementKey in spec && ZoneString(spec[PlacementKey]).None?
  }

  /** The spec carries a Placement whose AvailabilityZone is the string `az`. */
  predicate ZoneIs(spec: Spec, az: string) {
    PlacementKey in spec && ZoneString(spec[PlacementKey]) == Some(az)
  }

  /** Keys the transformation reads or writes; every other key is forwarded untouched. */
  const LauncherKeys: set<string> := {InstanceCountKey, MaxSpotPriceKey, PlacementKey, UserDataFileKey, UserDataKey}

  /** Derives the region scope from the zone string, dropping Placement when the zone names only a region. */
  function DeriveRegion(spec: Spec): (r: Result<(Option<string>, Spec), SpecError>)
    ensures r.Failure? <==> PlacementMalformed(spec)
    ensures r.Failure? ==> r.error == MalformedPlacement
    ensures r.Success? ==> r.value.1.Keys <= spec.Keys
    ensures r.Success? ==> forall k :: k in r.value.1 ==> r.value.1[k] == spec[k]
    ensures r.Success? ==> forall k :: k in spec && k != PlacementKey ==> k in r.value.1
    ensures PlacementKey !in spec || ZoneIs(spec, "") ==> r == Success((None, spec))
    ensures forall az {:trigger ZoneIs(spec, az)} :: ZoneIs(spec, az) && az != "" ==>
      if IsDigit(az[|az| - 1]) then r == Success((Some(az), spec - {PlacementKey}))
      else r == Success((Some(az[..|az| - 1]), spec))
  {
    if PlacementKey !in spec then
      Success((None, spec))
    else
      match ZoneString(spec[PlacementKey])
      case None => Failure(MalformedPlacement)
      case Some(az) =>
        if az == "" then Success((None, spec))
        else if IsDigit(az[|az| - 1]) then Success((Some(az), spec - {PlacementKey}))
        else Success((Some(az[..|az| - 1]), spec))
  }

  /** Replaces USER_DATA_FILE_NAME with UserData holding the encoded file contents. */
  function InsertUserData(spec: Spec, files: Files, encode: string -> string): (r: Result<Spec, SpecError>)
    ensures r.Success? ==> UserDataFileKey !in r.value
    ensures r.Success? ==> forall k :: k != UserDataFileKey && k != UserDataKey ==>
      (k in r.value <==> k in spec) && (k in spec ==> r.value[k] == spec[k])
    ensures r.Success? ==> forall k :: k in r.value ==> k in spec || k == UserDataKey
    ensures UserDataFileKey in spec && !spec[UserDataFileKey].Str? ==> r == Failure(MalformedUserDataFileName)
    ensures forall name {:trigger Str(name)} :: UserDataFileKey in spec && spec[UserDataFileKey] == Str(name) && name != "" ==>
      && (name !in files ==> r == Failure(UserDataFileNotFound(name)))
      && (name in files ==> r.Success? && UserDataKey in r.value && r.value[UserDataKey] == Str(encode(files[name])))
    ensures UserDataFileKey !in spec || spec[UserDataFileKey] == Str("") ==>
      && r.Success?
      && (UserDataKey in r.value <==> UserDataKey in spec)
      && (UserDataKey in spec ==> r.value[UserDataKey] == spec[UserDataKey])
  {
    if UserDataFileKey !in spec then
      Success(spec)
    else
      var rest := spec - {UserDataFileKey};
      match spec[UserDataFileKey]
      case Str(name) =>
        if name == "" then Success(rest)
        else if name in files then Success(rest[UserDataKey := Str(encode(files[name]))])
        else Failure(UserDataFileNotFound(name))
      case _ => Failure(MalformedUserDataFileName)
  }

  /** The whole transformation, checks in the launcher's order: instance count,
      maximum price, placement, user-data file. */
  function ProcessLaunchSpec(spec: Spec, files: Files, encode: string -> string): (r: Result<LaunchParams, SpecError>)
    // mandatory keys, the count checked first
    ensures r == Failure(MissingInstanceCount) <==> InstanceCountKey !in spec
    ensures r == Failure(MissingMaxSpotPrice) <==> InstanceCountKey in spec && MaxSpotPriceKey !in spec
    ensures r.Success? ==>
      && r.value.instanceCount == spec[InstanceCountKey]
      && r.value.maxSpotPrice == spec[MaxSpotPriceKey]
      && InstanceCountKey !in r.value.payload
      && MaxSpotPriceKey !in r.value.payload
      && UserDataFileKey !in r.value.payload
  {
    if InstanceCountKey !in spec then
      Failure(MissingInstanceCount)
    else
      var count := spec[InstanceCountKey];
      var withoutCount := spec - {InstanceCountKey};
      if MaxSpotPriceKey !in withoutCount then
        Failure(MissingMaxSpotPrice)
      else
        var price := withoutCount[MaxSpotPriceKey];
        var (region, placed) :- DeriveRegion(withoutCount - {MaxSpotPriceKey});
        var payload :- InsertUserData(placed, files, encode);
        Success(LaunchParams(count, price, region, payload))
  }

  /** The region scope and the fate of Placement follow the zone string's last
      character: no zone, no scope and Placement untouched; a trailing digit, the
      whole string is the region and Placement is dropped; anything else, the
      string minus its last character is the region and Placement is kept. */
  lemma RegionFromZone(spec: Spec, files: Files, encode: string -> string)
    requires InstanceCountKey in spec && MaxSpotPriceKey in spec
    ensures ProcessLaunchSpec(spec, files, encode) == Failure(MalformedPlacement) <==> PlacementMalformed(spec)
    ensures var r := ProcessLaunchSpec(spec, files, encode);
      r.Success? && (PlacementKey !in spec || ZoneIs(spec, "")) ==>
        && r.value.region == None
        && (PlacementKey in r.value.payload <==> PlacementKey in spec)
        && (PlacementKey in spec ==> r.value.payload[PlacementKey] == spec[PlacementKey])
    ensures forall az {:trigger ZoneIs(spec, az)} :: ZoneIs(spec, az) && az != "" ==>
      var r := ProcessLaunchSpec(spec, files, encode);
      r.Success? ==>
        if IsDigit(az[|az| - 1]) then
          r.value.region == Some(az) && PlacementKey !in r.value.payload
        else
          && r.value.region == Some(az[..|az| - 1])
          && PlacementKey in r.value.payload
          && r.value.payload[PlacementKey] == spec[PlacementKey]
  {
  }

  /** USER_DATA_FILE_NAME never reaches the payload: a non-empty name whose file
      is missing is an error, one whose file exists becomes UserData holding the
      encoded contents, and an empty or absent name adds nothing. */
  lemma UserDataFromFile(spec: Spec, files: Files, encode: string -> string)
    requires InstanceCountKey in spec && MaxSpotPriceKey in spec && !PlacementMalformed(spec)
    ensures var r := ProcessLaunchSpec(spec, files, encode);
      r.Success? ==> UserDataFileKey !in r.value.payload
    ensures forall name {:trigger Str(name)} :: UserDataFileKey in spec && spec[UserDataFileKey] == Str(name) && name != "" ==>
      var r := ProcessLaunchSpec(spec, files, encode);
      && (name !in files ==> r == Failure(UserDataFileNotFound(name)))
      && (name in files ==> r.Success? && UserDataKey in r.value.payload
                            && r.value.payload[UserDataKey] == Str(encode(files[name])))
    ensures UserDataFileKey in spec && !spec[UserDataFileKey].Str? ==>
      ProcessLaunchSpec(spec, files, encode) == Failure(MalformedUserDataFileName)
    ensures UserDataFileKey !in spec || spec[UserDataFileKey] == Str("") ==>
      var r := ProcessLaunchSpec(spec, files, encode);
      && r.Success?
      && (UserDataKey in r.value.payload <==> UserDataKey in spec)
      && (UserDataKey in spec ==> r.value.payload[UserDataKey] == spec[UserDataKey])
  {
  }

  /** Keys the launcher does not interpret are forwarded unchanged, and the payload
      gains no key except UserData. */
  lemma OtherKeysPassThrough(spec: Spec, files: Files, encode: string -> string)
    requires ProcessLaunchSpec(spec, files, encode).Success?
    ensures var payload := ProcessLaunchSpec(spec, files, encode).value.payload;
      && (forall k :: k in spec && k !in LauncherKeys ==> k in payload && payload[k] == spec[k])
      && (forall k :: k in payload ==> k in spec || k == UserDataKey)
  {
  }

  /** The spec a caller rebuilds from a transformation's result: the payload with
      the two launcher switches put back. */
  function Resubmission(p: LaunchParams): Spec {
    p.payload[InstanceCountKey := p.instanceCount][MaxSpotPriceKey := p.maxSpotPrice]
  }

  /** The transformation is a projection: running it again on its own output
      (switches put back) returns the same switches and payload, and the same
      region unless Placement was consumed by a region-only zone. */
  lemma ReprocessingIsStable(spec: Spec, files: Files, encode: string -> string, files': Files, encode': string -> string)
    requires ProcessLaunchSpec(spec, files, encode).Success?
    ensures var p := ProcessLaunchSpec(spec, files, encode).value;
      ProcessLaunchSpec(Resubmission(p), files', encode')
        == Success(p.(region := if PlacementKey in p.payload then p.region else None))
  {
    var p := ProcessLaunchSpec(spec, files, encode).value;
    var again := Resubmission(p);
    var stripped := again - {InstanceCountKey} - {MaxSpotPriceKey};
    assert stripped == p.payload;
    if PlacementKey in p.payload {
      assert p.payload[PlacementKey] == spec[PlacementKey];
      var az := ZoneString(spec[PlacementKey]).value;
      assert az == "" || !IsDigit(az[|az| - 1]);
    }
  }
}

=== FILE: launcher.dfy ===
/** The launch as a whole: transform the spec, submit one spot request batch,
    wait for fulfillment, resolve this run's instances, and optionally wait for
    their initialization. Provider calls are inputs (the ids the submission
    returns, the snapshots each cycle sees, the instance listing); the calls the
    launcher makes that change provider state are recorded as events. */
module Launcher {
  import opened Wrappers
  import opened LaunchSpec
  import opened StatusCodes
  import opened Polling
  import opened Fulfillment
  import opened Instances

  /** A call that changes provider state. */
  datatype Event =
    | SpotRequestSubmitted(instanceCount: string, maxSpotPrice: string, region: Option<string>, payload: Spec)
    | RequestsCancelled(ids: seq<string>)

  /** Why a launch failed. */
  datatype LaunchError =
    | InvalidSpec(specError: SpecError)
      /** The instance count or maximum price is not a string: building the
          request command raises a TypeError before any provider call. */
    | SwitchNotString
    | SpotRequestFailed(code: string, message: string)
    | KeyboardInterrupt
    | ResolutionFailed(resolveError: ResolveError)

  /** How a launch ends; LaunchPending means the given cycles ran out while a wait was still going on. */
  datatype LaunchResult = Launched(instances: seq<LaunchedInstance>) | LaunchFailed(error: LaunchError) | LaunchPending

  /** The calls made and the result. */
  datatype Run = Run(events: seq<Event>, result: LaunchResult)

  /** What the provider answers during one launch. */
  datatype Provider = Provider(
    submittedIds: seq<string>,
    requestCycles: seq<Tick<Snapshot>>,
    reservations: seq<Reservation>,
    healthCycles: seq<Tick<seq<InstanceHealth>>>)

  /** The submission event of a transformed spec whose switches are strings. */
  function Submission(p: LaunchParams): Event
    requires p.instanceCount.Str? && p.maxSpotPrice.Str?
  {
    SpotRequestSubmitted(p.instanceCount.s, p.maxSpotPrice.s, p.region, p.payload)
  }

  /** The launch. A spec error, or a count or price that is not a string, makes
      no provider call. Exactly one batch is submitted otherwise, and at most one
      cancellation follows it, always covering every id of the batch: after a
      practically-terminal code, or after an interrupt during the fulfillment
      wait. A terminal code, a resolution error, and an interrupt during the
      initialization wait cancel nothing. A successful launch returns exactly the
      resolution of this run's instances. */
  function Launch(spec: Spec, files: Files, encode: string -> string, waitForInit: bool, provider: Provider): (run: Run)
    ensures ProcessLaunchSpec(spec, files, encode).Failure? <==> run.result.LaunchFailed? && run.result.error.InvalidSpec?
    ensures ProcessLaunchSpec(spec, files, encode).Failure? ==>
      run.result.error.specError == ProcessLaunchSpec(spec, files, encode).error
    ensures run.result.LaunchFailed? && (run.result.error.InvalidSpec? || run.result.error.SwitchNotString?) <==> run.events == []
    ensures run.result == LaunchFailed(SwitchNotString) <==>
      && ProcessLaunchSpec(spec, files, encode).Success?
      && !(ProcessLaunchSpec(spec, files, encode).value.instanceCount.Str?
           && ProcessLaunchSpec(spec, files, encode).value.maxSpotPrice.Str?)
    ensures run.events != [] ==>
      && ProcessLaunchSpec(spec, files, encode).Success?
      && ProcessLaunchSpec(spec, files, encode).value.instanceCount.Str?
      && ProcessLaunchSpec(spec, files, encode).value.maxSpotPrice.Str?
      && run.events[0] == Submission(ProcessLaunchSpec(spec, files, encode).value)
      && |run.events| <= 2
      && (|run.events| == 2 ==> run.events[1] == RequestsCancelled(provider.submittedIds))
    ensures run.result.LaunchFailed? && run.result.error.SpotRequestFailed? ==>
      && (run.result.error.code in PracticallyTerminalCodes <==> |run.events| == 2)
      && (run.result.error.code in TerminalCodes <==> |run.events| == 1)
      && WaitForFulfillment(provider.submittedIds, provider.requestCycles).outcome.ProvisioningFailed?
    ensures run.events != [] && WaitForFulfillment(provider.submittedIds, provider.requestCycles).outcome == WaitInterrupted ==>
      run.result == LaunchFailed(KeyboardInterrupt) && |run.events| == 2
    ensures run.result.Launched? ==>
      && |run.events| == 1
      && WaitForFulfillment(provider.submittedIds, provider.requestCycles).outcome == AllFulfilled
      && Resolve(provider.submittedIds, provider.reservations) == Success(run.result.instances)
      && (waitForInit ==> WaitForInitialization(run.result.instances, provider.healthCycles) == Initialized)
    ensures run.events != [] && WaitForFulfillment(provider.submittedIds, provider.requestCycles).outcome == AllFulfilled ==>
      |run.events| == 1
    ensures run.events != [] && WaitForFulfillment(provider.submittedIds, provider.requestCycles).outcome == AllFulfilled ==>
      var resolved := Resolve(provider.submittedIds, provider.reservations);
      resolved.Success? && (waitForInit ==> WaitForInitialization(resolved.value, provider.healthCycles) == Initialized) ==>
        run.result == Launched(resolved.value)
  {
    match ProcessLaunchSpec(spec, files, encode)
    case Failure(e) => Run([], LaunchFailed(InvalidSpec(e)))
    case Success(p) =>
      if !p.instanceCount.Str? || !p.maxSpotPrice.Str? then
        Run([], LaunchFailed(SwitchNotString))
      else
        AfterSubmission(Submission(p), waitForInit, provider)
  }

  /** The stage after the one submission: the fulfillment wait, whose failures
      and interrupt may cancel the whole batch, then the stage after fulfillment. */
  function AfterSubmission(submission: Event, waitForInit: bool, provider: Provider): (run: Run)
    ensures 1 <= |run.events| <= 2 && run.events[0] == submission
    ensures |run.events| == 2 ==> run.events[1] == RequestsCancelled(provider.submittedIds)
    ensures run.result.LaunchFailed? ==> !run.result.error.InvalidSpec? && !run.result.error.SwitchNotString?
    ensures run.result.LaunchFailed? && run.result.error.SpotRequestFailed? ==>
      && (run.result.error.code in PracticallyTerminalCodes <==> |run.events| == 2)
      && (run.result.error.code in TerminalCodes <==> |run.events| == 1)
      && WaitForFulfillment(provider.submittedIds, provider.requestCycles).outcome.ProvisioningFailed?
    ensures WaitForFulfillment(provider.submittedIds, provider.requestCycles).outcome == WaitInterrupted ==>
      run.result == LaunchFailed(KeyboardInterrupt) && |run.events| == 2
    ensures run.result.Launched? ==>
      WaitForFulfillment(provider.submittedIds, provider.requestCycles).outcome == AllFulfilled
    ensures WaitForFulfillment(provider.submittedIds, provider.requestCycles).outcome == AllFulfilled ==>
      run == AfterFulfillment([submission], waitForInit, provider)
  {
    var submitted := [submission];
    var ids := provider.submittedIds;
    match WaitForFulfillment(ids, provider.requestCycles).outcome
    case StillWaiting => Run(submitted, LaunchPending)
    case WaitInterrupted =>
      // the interrupt handler cancels the whole batch, then re-raises
      Run(submitted + [RequestsCancelled(ids)], LaunchFailed(KeyboardInterrupt))
    case ProvisioningFailed(code, message, cancelled) =>
      var cancels := if cancelled.Some? then [RequestsCancelled(cancelled.value)] else [];
      Run(submitted + cancels, LaunchFailed(SpotRequestFailed(code, message)))
    case AllFulfilled =>
      AfterFulfillment(submitted, waitForInit, provider)
  }

  /** The stage after every request is fulfilled: resolve this run's instances
      and, when asked, wait for their initialization. Nothing in it cancels. */
  function AfterFulfillment(submitted: seq<Event>, waitForInit: bool, provider: Provider): (run: Run)
    ensures run.events == submitted
    ensures run.result.LaunchFailed? ==> run.result.error.ResolutionFailed? || run.result.error.KeyboardInterrupt?
    ensures Resolve(provider.submittedIds, provider.reservations).Failure? ==>
      run.result == LaunchFailed(ResolutionFailed(Resolve(provider.submittedIds, provider.reservations).error))
    ensures var resolved := Resolve(provider.submittedIds, provider.reservations);
      resolved.Success? && waitForInit && WaitForInitialization(resolved.value, provider.healthCycles) == InitInterrupted ==>
        run.result == LaunchFailed(KeyboardInterrupt)
    ensures run.result.Launched? ==>
      && Resolve(provider.submittedIds, provider.reservations) == Success(run.result.instances)
      && (waitForInit ==> WaitForInitialization(run.result.instances, provider.healthCycles) == Initialized)
    ensures var resolved := Resolve(provider.submittedIds, provider.reservations);
      resolved.Success? && (waitForInit ==> WaitForInitialization(resolved.value, provider.healthCycles) == Initialized) ==>
        run.result == Launched(resolved.value)
  {
    match Resolve(provider.submittedIds, provider.reservations)
    case Failure(e) => Run(submitted, LaunchFailed(ResolutionFailed(e)))
    case Success(launched) =>
      if !waitForInit then
        Run(submitted, Launched(launched))
      else
        match WaitForInitialization(launched, provider.healthCycles)
        case Initialized => Run(submitted, Launched(launched))
        case InitInterrupted => Run(submitted, LaunchFailed(KeyboardInterrupt))
        case InitStillWaiting => Run(submitted, LaunchPending)
  }

  /** A failure or interrupt in the fulfillment wait, at the first cycle that
      does not say Continue, ends the launch there: a practically-terminal code
      cancels the whole batch once and reports that entry's code and message; a
      terminal code reports them and cancels nothing; an interrupt cancels the
      whole batch once and re-raises. */
  lemma FulfillmentFailureEndsLaunch(spec: Spec, files: Files, encode: string -> string, waitForInit: bool,
                                     provider: Provider, k: nat)
    requires ProcessLaunchSpec(spec, files, encode).Success?
    requires ProcessLaunchSpec(spec, files, encode).value.instanceCount.Str?
    requires ProcessLaunchSpec(spec, files, encode).value.maxSpotPrice.Str?
    requires |provider.submittedIds| > 0 && k < |provider.requestCycles|
    requires ContinuedThrough(provider.submittedIds, provider.requestCycles, k)
    requires provider.requestCycles[k].Interrupted?
      || (provider.requestCycles[k].snapshot.Requests?
          && FirstFailure(provider.submittedIds, provider.requestCycles[k].snapshot.entries).Some?)
    ensures var run := Launch(spec, files, encode, waitForInit, provider);
      var submitted := Submission(ProcessLaunchSpec(spec, files, encode).value);
      var cancel := RequestsCancelled(provider.submittedIds);
      && (provider.requestCycles[k].Interrupted? ==>
            run == Run([submitted, cancel], LaunchFailed(KeyboardInterrupt)))
      && (provider.requestCycles[k].Observed? ==>
            var e := FirstFailure(provider.submittedIds, provider.requestCycles[k].snapshot.entries).value;
            && (e.code in PracticallyTerminalCodes ==>
                  run == Run([submitted, cancel], LaunchFailed(SpotRequestFailed(e.code, e.message))))
            && (e.code in TerminalCodes ==>
                  run == Run([submitted], LaunchFailed(SpotRequestFailed(e.code, e.message)))))
  {
    var ids := provider.submittedIds;
    var t := provider.requestCycles[k];
    if t.Interrupted? {
      FirstDecisionWins(ids, provider.requestCycles, k, WaitInterrupted);
    } else {
      var v := Evaluate(ids, t.snapshot);
      FirstDecisionWins(ids, provider.requestCycles, k, ProvisioningFailed(v.code, v.message, v.cancelled));
    }
  }

  /** Conversely, a run whose requests are all fulfilled, whose instances all
      resolve and, when asked, all finish initializing, is launched: it returns
      exactly the resolution of this run's instances after the one submission. */
  lemma FulfilledLaunchReturnsResolution(spec: Spec, files: Files, encode: string -> string, waitForInit: bool,
                                         provider: Provider, launched: seq<LaunchedInstance>)
    requires ProcessLaunchSpec(spec, files, encode).Success?
    requires ProcessLaunchSpec(spec, files, encode).value.instanceCount.Str?
    requires ProcessLaunchSpec(spec, files, encode).value.maxSpotPrice.Str?
    requires WaitForFulfillment(provider.submittedIds, provider.requestCycles).outcome == AllFulfilled
    requires Resolve(provider.submittedIds, provider.reservations) == Success(launched)
    requires waitForInit ==> WaitForInitialization(launched, provider.healthCycles) == Initialized
    ensures Launch(spec, files, encode, waitForInit, provider)
      == Run([Submission(ProcessLaunchSpec(spec, files, encode).value)], Launched(launched))
  {
  }

  /** Once every request is fulfilled nothing is cancelled any more: a resolution
      error fails the launch after the one submission, and so does an interrupt
      during the initialization wait, which lies outside the handler that cancels. */
  lemma NoCancelAfterFulfillment(spec: Spec, files: Files, encode: string -> string, waitForInit: bool,
                                 provider: Provider)
    requires ProcessLaunchSpec(spec, files, encode).Success?
    requires ProcessLaunchSpec(spec, files, encode).value.instanceCount.Str?
    requires ProcessLaunchSpec(spec, files, encode).value.maxSpotPrice.Str?
    requires WaitForFulfillment(provider.submittedIds, provider.requestCycles).outcome == AllFulfilled
    ensures var run := Launch(spec, files, encode, waitForInit, provider);
      var submitted := [Submission(ProcessLaunchSpec(spec, files, encode).value)];
      var resolved := Resolve(provider.submittedIds, provider.reservations);
      && run.events == submitted
      && (resolved.Failure? ==> run.result == LaunchFailed(ResolutionFailed(resolved.error)))
      && (resolved.Success? && waitForInit
          && WaitForInitialization(resolved.value, provider.healthCycles) == InitInterrupted
          ==> run.result == LaunchFailed(KeyboardInterrupt))
  {
  }
}

=== FILE: polling.dfy ===
/** The shape of the launcher's two polling loops: every cycle sleeps, then
    either reads one snapshot or is cut short by an interrupt. */
module Polling {
  /** One polling cycle: the snapshot fetched after the sleep, or an interrupt at
      the suspension point. */
  datatype Tick<S> = Observed(snapshot: S) | Interrupted
}

=== FILE: scenarios.dfy ===
/** Concrete launches: the zone examples of the launcher's documentation and two
    end-to-end runs, one fulfilled and one failing on capacity. */
module Scenarios {
  import opened Wrappers
  import opened LaunchSpec
  import opened StatusCodes
  import opened Polling
  import opened Fulfillment
  import opened Instances
  import opened Launcher

  function ZonePlacement(az: string): Value {
    Object(map[AvailabilityZoneKey := Str(az)])
  }

  /** The example spec: two instances at 0.08, placed in the given zone. */
  function ExampleSpec(az: string): Spec {
    map[InstanceCountKey := Str("2"), MaxSpotPriceKey := Str("0.08"), PlacementKey := ZonePlacement(az)]
  }

  function NoEncoding(content: string): string {
    content
  }

  /** "us-east-1c" names a zone: the region is "us-east-1" and Placement is kept;
      "us-east-1" names only a region: it is the region and Placement is dropped. */
  lemma ZoneExamples()
    ensures ProcessLaunchSpec(ExampleSpec("us-east-1c"), map[], NoEncoding)
      == Success(LaunchParams(Str("2"), Str("0.08"), Some("us-east-1"), map[PlacementKey := ZonePlacement("us-east-1c")]))
    ensures ProcessLaunchSpec(ExampleSpec("us-east-1"), map[], NoEncoding)
      == Success(LaunchParams(Str("2"), Str("0.08"), Some("us-east-1"), map[]))
  {
    assert ExampleSpec("us-east-1c") - {InstanceCountKey} - {MaxSpotPriceKey}
      == map[PlacementKey := ZonePlacement("us-east-1c")];
    assert ExampleSpec("us-east-1") - {InstanceCountKey} - {MaxSpotPriceKey}
      == map[PlacementKey := ZonePlacement("us-east-1")];
    assert "us-east-1c"[..|"us-east-1c"| - 1] == "us-east-1";
  }

  const RequestA := "sir-a"
  const RequestB := "sir-b"

  function Running(instanceId: string, request: string, publicIp: string, privateIp: string): Instance {
    Instance(instanceId, Some(request), Some(publicIp), Some(privateIp))
  }

  /** A two-entry snapshot, read entry by entry. */
  lemma TwoEntries(ids: seq<string>, x: RequestStatus, y: RequestStatus)
    ensures FulfilledCount(ids, [x, y])
      == (if FulfilledTracked(ids, x) then 1 else 0) + (if FulfilledTracked(ids, y) then 1 else 0)
    ensures FirstFailure(ids, [x, y]) ==
      if FailingTracked(ids, x) then Some(x) else if FailingTracked(ids, y) then Some(y) else None
  {
    assert [x, y][1..] == [y];
    assert [y][1..] == [];
    assert FulfilledCount(ids, [y]) == (if FulfilledTracked(ids, y) then 1 else 0) + FulfilledCount(ids, []);
  }

  /** Two requests, fulfilled one per snapshot and then both together, with an
      unrelated running instance in the listing. */
  function FulfilledProvider(): Provider {
    Provider(
      [RequestA, RequestB],
      [ Observed(Requests([RequestStatus(RequestA, "pending-fulfillment", ""), RequestStatus(RequestB, FulfilledCode, "")]))
      , Observed(Requests([RequestStatus(RequestA, FulfilledCode, ""), RequestStatus(RequestB, "pending-fulfillment", "")]))
      , Observed(Requests([RequestStatus(RequestA, FulfilledCode, ""), RequestStatus(RequestB, FulfilledCode, "")]))
      ],
      [ Reservation([Running("i-1", RequestA, "pub-1", "priv-1"), Running("i-9", "sir-other", "pub-9", "priv-9")])
      , Reservation([Running("i-2", RequestB, "pub-2", "priv-2")])
      ],
      [])
  }

  /** Polling continues through the two half-fulfilled snapshots (the count
      restarts on each) and ends at the third. */
  lemma FulfilledWait()
    ensures WaitForFulfillment(FulfilledProvider().submittedIds, FulfilledProvider().requestCycles) == Polled(AllFulfilled, 3)
  {
    var p := FulfilledProvider();
    var ids := p.submittedIds;
    var pending := "pending-fulfillment";
    assert Classify(pending) == Waiting;
    assert Classify(FulfilledCode) == Fulfilled;
    TwoEntries(ids, RequestStatus(RequestA, pending, ""), RequestStatus(RequestB, FulfilledCode, ""));
    TwoEntries(ids, RequestStatus(RequestA, FulfilledCode, ""), RequestStatus(RequestB, pending, ""));
    TwoEntries(ids, RequestStatus(RequestA, FulfilledCode, ""), RequestStatus(RequestB, FulfilledCode, ""));
    assert Evaluate(ids, p.requestCycles[0].snapshot) == Continue;
    assert Evaluate(ids, p.requestCycles[1].snapshot) == Continue;
    assert Evaluate(ids, p.requestCycles[2].snapshot) == Done;
    FirstDecisionWins(ids, p.requestCycles, 2, AllFulfilled);
  }

  /** The unrelated instance i-9 is left out of the resolution. */
  lemma FulfilledResolve()
    ensures Resolve(FulfilledProvider().submittedIds, FulfilledProvider().reservations)
      == Success([LaunchedInstance("i-1", "pub-1", "priv-1"), LaunchedInstance("i-2", "pub-2", "priv-2")])
  {
    var p := FulfilledProvider();
    var ids := p.submittedIds;
    var rs := p.reservations;
    assert rs[1..] == [rs[1]] && rs[1..][1..] == [];
    assert AllInstances(rs[1..]) == rs[1].instances + AllInstances([]);
    var i1 := Running("i-1", RequestA, "pub-1", "priv-1");
    var i9 := Running("i-9", "sir-other", "pub-9", "priv-9");
    var i2 := Running("i-2", RequestB, "pub-2", "priv-2");
    var all := [i1, i9, i2];
    assert AllInstances(rs) == all;
    assert all[1..] == [i9, i2] && [i9, i2][1..] == [i2] && [i2][1..] == [];
    assert !Owned(ids, i9);
    assert OwnedInstances(ids, [i2]) == [i2] + OwnedInstances(ids, []);
    assert OwnedInstances(ids, [i9, i2]) == [i2];
    var owned := [i1, i2];
    assert OwnedInstances(ids, all) == owned;
    var l1, l2 := LaunchedInstance("i-1", "pub-1", "priv-1"), LaunchedInstance("i-2", "pub-2", "priv-2");
    assert Project(i1) == Success(l1);
    assert Project(i2) == Success(l2);
    assert owned[1..] == [i2];
    assert ProjectAll([i2]) == Success([l2] + []);
    assert [l2] + [] == [l2];
    assert ProjectAll(owned) == Success([l1] + [l2]);
    assert [l1] + [l2] == [l1, l2];
  }

  /** The launch returns only this run's two instances and cancels nothing. */
  lemma FulfilledLaunch()
    ensures Launch(ExampleSpec("us-east-1c"), map[], NoEncoding, false, FulfilledProvider())
      == Run([SpotRequestSubmitted("2", "0.08", Some("us-east-1"), map[PlacementKey := ZonePlacement("us-east-1c")])],
             Launched([LaunchedInstance("i-1", "pub-1", "priv-1"), LaunchedInstance("i-2", "pub-2", "priv-2")]))
  {
    ZoneExamples();
    FulfilledWait();
    FulfilledResolve();
  }

  /** Two requests, one of which reports that capacity is not available. */
  function CapacityProvider(): Provider {
    Provider(
      [RequestA, RequestB],
      [ Observed(Requests([ RequestStatus(RequestA, "capacity-not-available", "no capacity")
                          , RequestStatus(RequestB, FulfilledCode, "") ])) ],
      [],
      [])
  }

  /** Both requests are cancelled, once, and the failure carries the code. */
  lemma CapacityFailure()
    ensures Launch(ExampleSpec("us-east-1c"), map[], NoEncoding, true, CapacityProvider())
      == Run([ SpotRequestSubmitted("2", "0.08", Some("us-east-1"), map[PlacementKey := ZonePlacement("us-east-1c")])
             , RequestsCancelled([RequestA, RequestB]) ],
             LaunchFailed(SpotRequestFailed("capacity-not-available", "no capacity")))
  {
    ZoneExamples();
    var p := CapacityProvider();
    var es := p.requestCycles[0].snapshot.entries;
    FirstFailureAt(p.submittedIds, es, 0);
    FulfillmentFailureEndsLaunch(ExampleSpec("us-east-1c"), map[], NoEncoding, true, p, 0);
  }

  /** One request reports a terminal code while the other is still pending. */
  function TerminalProvider(): Provider {
    Provider(
      [RequestA, RequestB],
      [ Observed(Requests([ RequestStatus(RequestA, "canceled-before-fulfillment", "cancelled")
                          , RequestStatus(RequestB, "pending-fulfillment", "") ])) ],
      [],
      [])
  }

  /** A terminal code fails the launch without any cancellation, so the pending
      request of the batch stays open. */
  lemma TerminalFailureLeavesBatchOpen()
    ensures Launch(ExampleSpec("us-east-1c"), map[], NoEncoding, false, TerminalProvider())
      == Run([SpotRequestSubmitted("2", "0.08", Some("us-east-1"), map[PlacementKey := ZonePlacement("us-east-1c")])],
             LaunchFailed(SpotRequestFailed("canceled-before-fulfillment", "cancelled")))
  {
    ZoneExamples();
    var p := TerminalProvider();
    var es := p.requestCycles[0].snapshot.entries;
    FirstFailureAt(p.submittedIds, es, 0);
    FulfillmentFailureEndsLaunch(ExampleSpec("us-east-1c"), map[], NoEncoding, false, p, 0);
  }
}

=== FILE: status_codes.dfy ===
/** Classification of the spot-request status codes the fulfillment poller reacts to. */
module StatusCodes {

  /** The code of a request whose instance has been launched. */
  const FulfilledCode := "fulfilled"

  /** Codes the provider documents as non-terminal but that in practice never
      leave their holding state; the launcher treats them as failures and cancels
      the whole batch. */
  const PracticallyTerminalCodes: set<string> := {
    "constraint-not-fulfillable",
    "capacity-not-available",
    "az-group-constraint",
    "placement-group-constraint",
    "capacity-oversubscribed",
    "launch-group-constraint"
  }

  /** Codes that are terminal for the provider itself. */
  const TerminalCodes: set<string> := {
    "system-error",
    "bad-parameters",
    "schedule-expired",
    "canceled-before-fulfillment"
  }

  /** The two kinds of failing code. */
  datatype FailureClass = PracticallyTerminal | Terminal

  /** How the poller reads one status code. */
  datatype CodeClass = Fulfilled | Failing(failure: FailureClass) | Waiting

  /** The launcher tests "fulfilled", then the practically-terminal codes, then
      the terminal ones; because the three groups are disjoint, each class holds
      exactly the codes of its group, and every other code keeps the request waiting. */
  function Classify(code: string): (c: CodeClass)
    ensures c == Fulfilled <==> code == FulfilledCode
    ensures c == Failing(PracticallyTerminal) <==> code in PracticallyTerminalCodes
    ensures c == Failing(Terminal) <==> code in TerminalCodes
    ensures c == Waiting <==> code != FulfilledCode && code !in PracticallyTerminalCodes && code !in TerminalCodes
  {
    if code == FulfilledCode then Fulfilled
    else if code in PracticallyTerminalCodes then Failing(PracticallyTerminal)
    else if code in TerminalCodes then Failing(Terminal)
    else Waiting
  }

  /** The three code groups are pairwise disjoint and have six and four members. */
  lemma CodeGroupsDisjoint()
    ensures FulfilledCode !in PracticallyTerminalCodes && FulfilledCode !in TerminalCodes
    ensures PracticallyTerminalCodes !! TerminalCodes
    ensures |PracticallyTerminalCodes| == 6 && |TerminalCodes| == 4
  {
  }
}

=== FILE: wrappers.dfy ===
/** Option and Result, the failure-compatible datatypes the rest of the model uses
    for absent values and for the launcher's raised errors. */
module Wrappers {

  /** A value that may be absent. */
  datatype Option<+T> = None | Some(value: T) {

    predicate IsFailure() {
      None?
    }

    function PropagateFailure<U>(): Option<U>
      requires None?
    {
      None
    }

    function Extract(): T
      requires Some?
    {
      value
    }
  }

  /** Either a value or the error that was raised instead of producing it. */
  datatype Result<+R, +E> = Success(value: R) | Failure(error: E) {

    predicate IsFailure() {
      Failure?
    }

    function PropagateFailure<U>(): Result<U, E>
      requires Failure?
    {
      Failure(error)
    }

    function Extract(): R
      requires Success?
    {
      value
    }
  }
}
